=== FILE: README.md ===
# Course version comparison, modelled in Dafny

This project models the version-comparison core of a browser extension for
reading online courses. The extension's content script (`cs.js`) shows two
versions of a course side by side. Its core is pure logic over maps and
sequences, in five parts:

- **Parser** (`parseCourseInfo`). It turns the list of version snapshots
  into a course graph: a map from version label to the ordered section ids
  of that version, and a map from section id to title, prev link, next link
  and version label. It also records the active version. Next links
  are made by inverting the prev links.
- **Aligner** (`findOtherSectionID`). It finds the section of another version
  that corresponds to a given section. It first walks the prev chain and then
  the next chain.
- **Merger** (`combinedToc`). It walks both versions' section lists with two
  cursors and emits the rows of a merged table of contents. Each row comes
  from one arm of a five-way branch (added, removed, changed, or one of two
  kinds of move); the source rows carry no label, and the model tags each row
  with the arm that emitted it.
- **Version chooser** (`chooseOtherVersion` and the pure part of
  `getOtherVersion`). It picks which version to compare with: the active one,
  or the newest label below it.
- **Page address parser** (`parseCoursePageURL`). It matches the anchored
  pattern `^#/course/([^/]+)/([^/]+)/(\d+)` against the hash of the address.

Files, one module each: `wrappers.dfy` (Option, Result), `strings.dfy`
(JavaScript string `<`, digits), `course.dfy` (the graph, its
well-formedness, link chains), `parser.dfy`, `aligner.dfy`, `merger.dfy`,
`selector.dfy`, `page_url.dfy`, and `scenarios.dfy` (small worked examples).

Modelling choices:

- `undefined` is `None`. A thrown exception is a `Failure` or `None` result:
  a dangling prev link in the parser, and an unknown version label in
  `combinedToc`.
- The parser and the chooser each loop with `for...in`. The key order that
  loop sees is a parameter (`order`, `keys`) that must list exactly the keys.
  The chooser's result is proved to be independent of that order. The parser's
  order decides only which of two sections with the same prev section becomes
  that section's next. The model does not fix that choice.
- Each walk of the correspondence search stops at the first section of the
  target version. The source loops forever only when a walk goes round a
  cycle that has no section of the target version, and it throws only when a
  walk reaches a link to a missing section. The model instead requires the
  whole graph to be well formed: every link resolves, and some ranking goes
  down along prev links and up along next links. So it also refuses some
  graphs on which the source returns a result, such as a cycle that is never
  walked or one that passes through a section of the target version.
  `ParseWellFormed` shows that a parsed course meets this requirement
  whenever its prev links never cycle.
- Each merged row carries a `kind` naming the branch that emitted it. The
  source names these branches only in comments. The tag is what lets the model
  state which rows advance which cursor.
- JavaScript compares strings with `<`. Dafny's `<` on sequences means "proper
  prefix", so the model defines `Strings.LexLess` instead. It proves that
  `LexLess` is a strict total order.

Behaviour of the code that a reader might not expect, and that the model
reproduces:

- The comment at cs.js:129 says the snapshots are sorted oldest to newest,
  but the loop starts at the last element (cs.js:130). So `raw[0]` is
  processed last: its section entries, its version entry and its active label
  (cs.js:132) win.
- The reverse table (other version to this one) is filled only from this
  version's sections (cs.js:57-62), and the last writer wins
  (`ReverseMapKeys`, `ReverseMapLast`).
- A moved section appears in two rows: its own, and the row of its
  counterpart (cs.js:90-103), so a section can appear in more than one row.
  What does hold is that each section appears exactly once, in order, among
  the rows that advance its version's cursor (`MergeSides`).
- The scan for the default starts at the non-empty label `'0000-00-00'`
  (cs.js:394), so the fallback at cs.js:405-406 is never reached, and the
  floor label comes back when no version lies below the active one. For a
  single-version course that label names no version, so no merged table can
  be built (`SingleVersionDefault`). Labels that sort at or below the floor
  are never chosen.

## Model

| member | source | states |
|---|---|---|
| Strings.LexLessIrreflexive | cs.js:396 | no label sorts below itself under JavaScript's string `<` |
| Strings.LexLessTransitive | cs.js:396 | string `<` is transitive, which makes the max scan's running best dominate every label seen |
| Strings.LexLessTotal | cs.js:396 | any two distinct labels are ordered one way or the other, so "the greatest label below" is unique |
| Strings.LexLessAsymmetric | cs.js:396 | two labels never each sort below the other |
| Course.DistanceDecreases | cs.js:29-39 | on a well-formed graph each step of either walk lands on an existing section and strictly shrinks the termination measure |
| Course.Chain | cs.js:29-39 | the chain a walk visits starts at the start section and contains only existing sections |
| Aligner.Walk | cs.js:29-31 | one walk returns the first section of its chain that belongs to the target version, or absent exactly when no section of the chain does |
| Aligner.WalkStep | cs.js:29-31 | stepping off a section outside the target version does not change which section the walk finds first |
| Aligner.FindOtherSectionID | cs.js:27-41 | the result is absent or a section of the target version; a section already in the target is its own answer; if any section of the prev chain is in the target, the first one is returned, otherwise the first one on the next chain, otherwise absent |
| Merger.Step | cs.js:70-104 | one loop iteration advances at least one cursor, by one; a cursor advances exactly when the row's kind says so, and the row then holds that cursor's section; the branches are tried in the source's order: a this-section with no correspondence always gives a this-only row, an other-only row is emitted only when the this-cursor is done or its section has a correspondence, a this-section whose correspondence is the current other-section (itself a key of the reverse table) always gives a matched row advancing both, and a row taken from the reverse table only when the this-cursor is done; the row's shape and lookup-table facts match its branch |
| Merger.Lockstep | cs.js:82-89 | when the two lists have equal length and every section corresponds to the one at the same index of the other list, the merge is exactly one matched row per pair, in order |
| Merger.Merge | cs.js:67-105 | the walk terminates; the number of rows is at least each list's remaining length and at most their sum; every row is well shaped and agrees with the lookup tables |
| Merger.MergeSides | cs.js:67-105 | the rows that advance the this-cursor list this version's sections exactly and in order, and likewise for the other cursor |
| Merger.ReverseMapKeys | cs.js:56-62 | an id is a key of the reverse table exactly when some section of this version corresponds to it |
| Merger.ReverseMapLast | cs.js:56-62 | the reverse table maps an id to the last section of this version that corresponds to it |
| Merger.CombinedToc | cs.js:51-108 | fails exactly when either label is not a version; otherwise the row count lies between max(\|A\|,\|B\|) and \|A\|+\|B\|, the advancing rows list A and B exactly in order, a this-only row's section has no correspondence, an other-only row's section is nobody's correspondence, and a two-sided row pairs a section of A with its correspondence |
| Merger.MergedMeaning | cs.js:56-105 | for the lookup tables built from this version's correspondences, the merged rows list both versions exactly in order, and each row's pairing means what the correspondence search says |
| Parser.AddSections | cs.js:135-142 | after one snapshot's inner loop the section keys are the old keys plus that snapshot's ids, and no entry has a next link |
| Parser.AddSectionsKeeps | cs.js:135-142 | ids the snapshot does not list keep the entries they had |
| Parser.AddSectionsLast | cs.js:135-142 | a listed id's entry is made from its last occurrence in the snapshot, with the snapshot's label and no next link |
| Parser.Register | cs.js:130-144 | the active label is the first snapshot's, or absent for an empty list; no next link is set before inversion |
| Parser.RegisterVersions | cs.js:130-144 | there is one version entry per snapshot label, listing in raw order the ids of the first snapshot in the list with that label |
| Parser.RegisterSections | cs.js:130-144 | there is a section entry exactly for each listed id; a surviving raw section fixes its title, prev link and version label |
| Parser.RegisterVersionsResolve | cs.js:130-144 | every id a version entry lists has a section entry |
| Parser.Invert | cs.js:145-149 | the pass fails exactly when some prev link names a missing section; otherwise it keeps keys, titles, prev links and labels, gives every referenced prev section a next link, and keeps next links answered by prev links |
| Parser.ParseCourseInfo | cs.js:125-152 | parsing fails exactly when a registered prev link dangles; on success every next link points at a section whose prev link points back |
| Parser.ParseContents | cs.js:125-152 | a parsed course's versions, section ids, titles, prev links and version labels are those the snapshots list |
| Parser.ParseActive | cs.js:130-132 | a parsed course's active label is the first snapshot's, or absent for an empty list |
| Parser.ParseLinks | cs.js:145-149 | after parsing, next links are answered by prev links, every section named by a prev link has a next link, all links resolve, and every listed id is a section |
| Parser.ParseWellFormed | cs.js:145-149 | a parsed course with no cycle of prev links is well formed, so the correspondence search over it terminates |
| Selector.MaxBelow | cs.js:394-399 | the scan returns its start label, or a visited label between the start and the active label; no visited label lies strictly between the result and the active label |
| Selector.ScanStep | cs.js:396-398 | visiting one label keeps the scan's running best no worse than that label |
| Selector.ChooseOtherVersion | cs.js:387-407 | off the active version the answer is the active label; on it, the answer is the greatest version strictly between `0000-00-00` and the active label, or `0000-00-00` exactly when there is none |
| Selector.DefaultBelowUnique | cs.js:394-399 | at most one label satisfies the description of the default |
| Selector.ChooseOrderIndependent | cs.js:395-399 | the chooser's answer does not depend on the order in which `for...in` visits the labels |
| Selector.GetOtherVersion | cs.js:409-419 | a stored label is used when it is non-empty and still a version; otherwise the default applies; the answer is a version, the floor label, or the active label, and is absent only for a course with no active label; with no usable stored label, off the active version the answer is the active label and on it the answer is the greatest version strictly between `0000-00-00` and the active label, or `0000-00-00` when there is none |
| PageUrl.StripPrefix | cs.js:165 | the anchored literal prefix `#/course/` is removed, or there is no match |
| PageUrl.TakeSegment | cs.js:165 | a `[^/]+` group followed by `/` is taken greedily, and the rest follows the slash |
| PageUrl.TakeDigits | cs.js:165 | a `\d+` group is taken greedily, and what follows does not start with a digit |
| PageUrl.ParseCoursePageURL | cs.js:163-169 | a match yields name, version and page id that are valid groups; the hash is the rendered reference followed by a tail that does not continue the digits |
| PageUrl.ParseRender | cs.js:165 | every rendered reference followed by any tail that does not start with a digit parses back to that reference, so a match happens exactly for such hashes |
| Scenarios.ThreeSectionCorrespondences | cs.js:27-41 | in a two-version example, s1 and s3 are found forward along next links and the dropped s2 has no correspondence |
| Scenarios.ThreeSectionCorrespondencesOf | cs.js:27-41 | for any five distinct ids in the two-version example, s1 and s3 are found forward along next links and the dropped s2 has no correspondence |
| Scenarios.ThreeSectionMerge | cs.js:67-105 | on lists s1,s2,s3 and t1,t3 whose tables pair s1 with t1 and s3 with t3 and leave s2 unpaired, the merge loop emits matched, added, matched |
| Scenarios.DroppedSectionScenarioOf | cs.js:51-108 | for any five distinct ids, the dropped section gets a this-only row between the two matched rows |
| Scenarios.DroppedSectionScenario | cs.js:51-108 | the same with the concrete ids s1, s2, s3, t1, t3 |
| Scenarios.DatedDefaultBelow | cs.js:394-399 | among 2023-01-01, 2023-06-01 and 2024-01-01, the greatest label below 2024-01-01 is 2023-06-01 |
| Scenarios.DatedCourseDefaults | cs.js:387-407 | on active version 2024-01-01 the default is 2023-06-01; on 2023-01-01 it is 2024-01-01 |
| Scenarios.SingleVersionDefault | cs.js:387-407 | on a course with one version, viewed on that version, the default is `0000-00-00`, and the merged table cannot be built for it |

## Left out

- Network access is not modelled: `rawCourseVersions`, the page-text fetches in `showDiff`, and the `cachedCourses` memo in `getCourseInfo` all depend on it.
- Storage is not modelled: the reads and writes of `chrome.storage` in `getOtherVersion` and `selectOtherVersion`. The stored label is an input to `GetOtherVersion`.
- `HtmlDiff.execute` is an external library and is not part of this model.
- DOM and UI code is not modelled: `elem`, `constructUI`, `openToc`, `closeToc`, `closeDiff`, `onTocTableClick`, and the HTML building in `populateVersionsUI` and `populateTocUI` (including the sorted option list and the title lookups).
- `new URL(window.location.href)` reads the browser's state, so the model starts from the hash string.
- Extension lifecycle messaging is not modelled: `tearDown` and `onMessage` in cs.js, and all of bg.js.
- The key order of `for...in` is an input, not a fixed order, as described above.
- A section id or stored label that JavaScript treats as false (the number 0 or the empty string) is treated as present, except that `GetOtherVersion` does reject the empty stored label. Ids are strings throughout. The loose `==` between a numeric id and its string form is not modelled.
- For a section without a correspondence, the source also writes its id into the reverse table under the key `"undefined"`. The model omits that entry. It matters only for a section whose id is literally `undefined`.
- Inherited object properties, such as a version labelled `constructor` passing the check at cs.js:415, are not modelled.
- Strings.LexLess: characters compare by code point, whereas JavaScript compares UTF-16 code units. The two orders differ only between characters above U+FFFF and characters from U+E000 to U+FFFF.
- Aligner.FindOtherSectionID: the source throws when a walk reaches a link to a missing section, and loops forever when a walk goes round a cycle with no section of the target version. The model requires the whole graph to be well formed instead of modelling those outcomes, so it also refuses graphs whose faults lie off the walked chains, or on a cycle through a section of the target version, on which the source returns a result.
- Merger.CombinedToc: a section id of this version that has no section entry makes the source throw inside the correspondence search. The model requires that every such id resolves, which a parsed course always satisfies. It also inherits the well-formedness requirement of Aligner.FindOtherSectionID, with the same over-approximation.
- Parser.ParseCourseInfo: the thrown TypeError carries no section id, and the model's error carries none either. Which of several sections sharing a prev section becomes its next depends on the `order` parameter and is not pinned down.

=== FILE: aligner.dfy ===
/** `findOtherSectionID`: the section of another version that corresponds to
    a given section, found by walking derivation links. */
module Aligner {
  import opened Wrappers
  import opened Course

  /** Some section of `chain` belongs to `target`. */
  ghost predicate Reaches(secs: map<SectionId, Section>, chain: seq<SectionId>, target: Label)
    requires forall k :: 0 <= k < |chain| ==> chain[k] in secs
  {
    exists k :: 0 <= k < |chain| && secs[chain[k]].courseVersionID == target
  }

  /** `r` is the first section of `chain` that belongs to `target`, or absent
      when no section of `chain` does. */
  ghost predicate FirstInVersion(secs: map<SectionId, Section>, chain: seq<SectionId>, target: Label, r: Option<SectionId>)
    requires forall k :: 0 <= k < |chain| ==> chain[k] in secs
  {
    match r
    case None => !Reaches(secs, chain, target)
    case Some(id) =>
      exists k :: 0 <= k < |chain| && chain[k] == id && secs[id].courseVersionID == target &&
        forall m :: 0 <= m < k ==> secs[chain[m]].courseVersionID != target
  }

  /** A section outside `target` whose `dir` link leads to `n` has the same
      first section of `target` on its chain as `n` has. */
  lemma {:induction false} WalkStep(secs: map<SectionId, Section>, id: SectionId, n: SectionId, target: Label, dir: Direction, r: Option<SectionId>)
    requires WellFormed(secs) && id in secs && n in secs
    requires secs[id].courseVersionID != target && Link(secs[id], dir) == Some(n)
    requires FirstInVersion(secs, Chain(secs, n, dir), target, r)
    ensures FirstInVersion(secs, Chain(secs, id, dir), target, r)
  {
    var c := Chain(secs, id, dir);
    var cn := Chain(secs, n, dir);
    assert c == [id] + cn;
    if r.Some? {
      var k :| 0 <= k < |cn| && cn[k] == r.value && secs[r.value].courseVersionID == target &&
               forall m :: 0 <= m < k ==> secs[cn[m]].courseVersionID != target;
      assert c[k + 1] == r.value;
      forall m | 0 <= m < k + 1
        ensures secs[c[m]].courseVersionID != target
      {
        if m > 0 {
          assert c[m] == cn[m - 1];
        }
      }
    } else {
      forall k | 0 <= k < |c|
        ensures secs[c[k]].courseVersionID != target
      {
        if k > 0 {
          assert c[k] == cn[k - 1];
        }
      }
    }
  }

  /** One of the two loops of `findOtherSectionID`: follow `dir` links from `id`
      until a section of `target` is met or the chain ends. */
  function Walk(secs: map<SectionId, Section>, id: SectionId, target: Label, dir: Direction): (r: Option<SectionId>)
    requires WellFormed(secs) && id in secs
    ensures FirstInVersion(secs, Chain(secs, id, dir), target, r)
    decreases Distance(secs, id, dir)
  {
    if secs[id].courseVersionID == target then Some(id)
    else
      match Link(secs[id], dir)
      case None => None
      case Some(n) =>
        DistanceDecreases(secs, id, dir);
        var r := Walk(secs, n, target, dir);
        WalkStep(secs, id, n, target, dir, r);
        r
  }

  /** The whole prev chain is tried before the next chain; a section already
      in `target` is its own correspondence. */
  function FindOtherSectionID(secs: map<SectionId, Section>, thisSectionID: SectionId, otherVersionID: Label): (r: Option<SectionId>)
    requires WellFormed(secs) && thisSectionID in secs
    ensures secs[thisSectionID].courseVersionID == otherVersionID ==> r == Some(thisSectionID)
    ensures r.Some? ==> r.value in secs && secs[r.value].courseVersionID == otherVersionID
    ensures Reaches(secs, Chain(secs, thisSectionID, Back), otherVersionID) ==>
              FirstInVersion(secs, Chain(secs, thisSectionID, Back), otherVersionID, r)
    ensures !Reaches(secs, Chain(secs, thisSectionID, Back), otherVersionID) ==>
              FirstInVersion(secs, Chain(secs, thisSectionID, Forward), otherVersionID, r)
  {
    match Walk(secs, thisSectionID, otherVersionID, Back)
    case Some(id) => Some(id)
    case None => Walk(secs, thisSectionID, otherVersionID, Forward)
  }
}

=== FILE: course.dfy ===
/** The normalized course graph produced by `parseCourseInfo` and consumed by
    the aligner, the merger and the version chooser. */
module Course {
  import opened Wrappers

  /** Section ids are opaque strings, unique across all versions of a course. */
  type SectionId = string

  /** Version labels are sortable strings, such as zero-padded dates. */
  type Label = string

  /** One section of one version. `prevVersionID` is copied from the raw data;
      `nextVersionID` is derived by inverting the prev links. */
  datatype Section = Section(
    title: string,
    prevVersionID: Option<SectionId>,
    nextVersionID: Option<SectionId>,
    courseVersionID: Label)

  /** `versions` maps a label to its ordered section ids; `activeVersion` is
      absent only when the course had no snapshots at all. */
  datatype CourseInfo = CourseInfo(
    versions: map<Label, seq<SectionId>>,
    sections: map<SectionId, Section>,
    activeVersion: Option<Label>)

  /** The two directions a correspondence search can walk. */
  datatype Direction = Back | Forward

  function Link(s: Section, dir: Direction): Option<SectionId> {
    match dir
    case Back => s.prevVersionID
    case Forward => s.nextVersionID
  }

  /** Every prev and next link names a section that exists. */
  ghost predicate LinksResolve(secs: map<SectionId, Section>) {
    && (forall id :: id in secs && secs[id].prevVersionID.Some? ==> secs[id].prevVersionID.value in secs)
    && (forall id :: id in secs && secs[id].nextVersionID.Some? ==> secs[id].nextVersionID.value in secs)
  }

  /** `rank` orders the sections so that a prev link always goes down and a
      next link always goes up, and `bound` is above every rank. */
  ghost predicate Ranking(secs: map<SectionId, Section>, rank: map<SectionId, nat>, bound: nat) {
    && (forall id :: id in secs ==> id in rank && rank[id] <= bound)
    && (forall id :: id in secs && secs[id].prevVersionID.Some? && secs[id].prevVersionID.value in secs ==>
          rank[secs[id].prevVersionID.value] < rank[id])
    && (forall id :: id in secs && secs[id].nextVersionID.Some? && secs[id].nextVersionID.value in secs ==>
          rank[id] < rank[secs[id].nextVersionID.value])
  }

  /** No prev chain and no next chain comes back to where it started. */
  ghost predicate Acyclic(secs: map<SectionId, Section>) {
    exists rank, bound :: Ranking(secs, rank, bound)
  }

  /** What the correspondence search needs in order to terminate without a
      lookup of a missing section. */
  ghost predicate WellFormed(secs: map<SectionId, Section>) {
    LinksResolve(secs) && Acyclic(secs)
  }

  /** Every id listed by `version` is a section. */
  ghost predicate VersionResolves(ci: CourseInfo, version: Label) {
    version in ci.versions ==>
      forall k :: 0 <= k < |ci.versions[version]| ==> ci.versions[version][k] in ci.sections
  }

  ghost function SomeRanking(secs: map<SectionId, Section>): (p: (map<SectionId, nat>, nat))
    requires Acyclic(secs)
    ensures Ranking(secs, p.0, p.1)
  {
    var rank, bound :| Ranking(secs, rank, bound); (rank, bound)
  }

  /** The termination measure of a walk from `id` in direction `dir`. */
  ghost function Distance(secs: map<SectionId, Section>, id: SectionId, dir: Direction): nat
    requires Acyclic(secs) && id in secs
  {
    var (rank, bound) := SomeRanking(secs);
    match dir
    case Back => rank[id]
    case Forward => bound - rank[id]
  }

  lemma DistanceDecreases(secs: map<SectionId, Section>, id: SectionId, dir: Direction)
    requires WellFormed(secs) && id in secs && Link(secs[id], dir).Some?
    ensures Link(secs[id], dir).value in secs
    ensures Distance(secs, Link(secs[id], dir).value, dir) < Distance(secs, id, dir)
  {
  }

  /** The sections visited by following `dir` links from `id`, `id` first,
      until a link is absent. */
  function Chain(secs: map<SectionId, Section>, id: SectionId, dir: Direction): (c: seq<SectionId>)
    requires WellFormed(secs) && id in secs
    ensures |c| > 0 && c[0] == id
    ensures forall k :: 0 <= k < |c| ==> c[k] in secs
    decreases Distance(secs, id, dir)
  {
    match Link(secs[id], dir)
    case None => [id]
    case Some(n) =>
      DistanceDecreases(secs, id, dir);
      [id] + Chain(secs, n, dir)
  }
}

=== FILE: merger.dfy ===
/** `combinedToc`: the merged table of contents of two versions of a course. */
module Merger {
  import opened Wrappers
  import opened Course
  import opened Aligner

  /** Which branch of the merge loop emitted a slot; the source names them in
      comments: added, removed, changed, and the two kinds of move. */
  datatype Kind = Added | Removed | Changed | MovedThis | MovedOther

  /** One row of the comparison table. */
  datatype Slot = Slot(thisSectionID: Option<SectionId>, otherSectionID: Option<SectionId>, kind: Kind)

  /** The branches that advance the cursor over this version's sections. */
  predicate AdvancesThis(k: Kind) {
    k == Added || k == Changed || k == MovedThis
  }

  /** The branches that advance the cursor over the other version's sections. */
  predicate AdvancesOther(k: Kind) {
    k == Removed || k == Changed || k == MovedOther
  }

  /** Added rows hold only this side, removed rows only the other side, all
      other rows both sides. */
  predicate WellShaped(s: Slot) {
    match s.kind
    case Added => s.thisSectionID.Some? && s.otherSectionID.None?
    case Removed => s.thisSectionID.None? && s.otherSectionID.Some?
    case _ => s.thisSectionID.Some? && s.otherSectionID.Some?
  }

  /** The this-side ids of the rows that advanced the this-cursor, in order. */
  function ThisSide(slots: seq<Slot>): seq<SectionId> {
    if |slots| == 0 then []
    else
      (if AdvancesThis(slots[0].kind) && slots[0].thisSectionID.Some? then [slots[0].thisSectionID.value] else [])
      + ThisSide(slots[1..])
  }

  /** The other-side ids of the rows that advanced the other-cursor, in order. */
  function OtherSide(slots: seq<Slot>): seq<SectionId> {
    if |slots| == 0 then []
    else
      (if AdvancesOther(slots[0].kind) && slots[0].otherSectionID.Some? then [slots[0].otherSectionID.value] else [])
      + OtherSide(slots[1..])
  }

  /** `otherToThis`: filled from this version's sections only, in order, so the
      last section of `A` that maps to a given id wins. */
  function ReverseMap(thisToOther: map<SectionId, Option<SectionId>>, A: seq<SectionId>): map<SectionId, SectionId>
    requires forall k :: 0 <= k < |A| ==> A[k] in thisToOther
    decreases |A|
  {
    if |A| == 0 then map[]
    else
      var last := A[|A| - 1];
      var rest := ReverseMap(thisToOther, A[..|A| - 1]);
      match thisToOther[last]
      case None => rest
      case Some(o) => rest[o := last]
  }

  /** An id is a key of `otherToThis` exactly when some section of `A` maps to it. */
  lemma {:induction false} ReverseMapKeys(thisToOther: map<SectionId, Option<SectionId>>, A: seq<SectionId>)
    requires forall k :: 0 <= k < |A| ==> A[k] in thisToOther
    ensures forall b :: b in ReverseMap(thisToOther, A) <==> exists k :: 0 <= k < |A| && thisToOther[A[k]] == Some(b)
    decreases |A|
  {
    if |A| > 0 {
      var init := A[..|A| - 1];
      var last := A[|A| - 1];
      assert forall k :: 0 <= k < |init| ==> init[k] == A[k];
      ReverseMapKeys(thisToOther, init);
      var rest := ReverseMap(thisToOther, init);
      var r := ReverseMap(thisToOther, A);
      forall b
        ensures b in r <==> exists k :: 0 <= k < |A| && thisToOther[A[k]] == Some(b)
      {
        if b in r && thisToOther[last] != Some(b) {
          assert b in rest;
          var k :| 0 <= k < |init| && thisToOther[init[k]] == Some(b);
          assert thisToOther[A[k]] == Some(b);
        }
        if exists k :: 0 <= k < |A| && thisToOther[A[k]] == Some(b) {
          var k :| 0 <= k < |A| && thisToOther[A[k]] == Some(b);
          if k < |A| - 1 {
            assert thisToOther[init[k]] == Some(b);
            assert b in rest;
          }
        }
      }
    }
  }

  /** The entry of a key of `otherToThis` is the last section of `A` that maps to it. */
  lemma {:induction false} ReverseMapLast(thisToOther: map<SectionId, Option<SectionId>>, A: seq<SectionId>)
    requires forall k :: 0 <= k < |A| ==> A[k] in thisToOther
    ensures var r := ReverseMap(thisToOther, A);
            forall b :: b in r ==>
              exists k :: 0 <= k < |A| && A[k] == r[b] && thisToOther[A[k]] == Some(b) &&
                forall m :: k < m < |A| ==> thisToOther[A[m]] != Some(b)
    decreases |A|
  {
    if |A| > 0 {
      var init := A[..|A| - 1];
      var last := A[|A| - 1];
      assert forall k :: 0 <= k < |init| ==> init[k] == A[k];
      ReverseMapLast(thisToOther, init);
      var rest := ReverseMap(thisToOther, init);
      var r := ReverseMap(thisToOther, A);
      forall b | b in r
        ensures exists k :: 0 <= k < |A| && A[k] == r[b] && thisToOther[A[k]] == Some(b) &&
                  forall m :: k < m < |A| ==> thisToOther[A[m]] != Some(b)
      {
        if thisToOther[last] == Some(b) {
          assert A[|A| - 1] == r[b];
        } else {
          assert b in rest && r[b] == rest[b];
          var k :| 0 <= k < |init| && init[k] == rest[b] && thisToOther[init[k]] == Some(b) &&
                   forall m :: k < m < |init| ==> thisToOther[init[m]] != Some(b);
          assert A[k] == r[b];
        }
      }
    }
  }

  /** Slot `s` agrees with the two lookup tables: a lone this-side id has no
      correspondence, a lone other-side id is nobody's correspondence, and a
      pair is a correspondence. */
  ghost predicate AgreesWithTables(s: Slot, thisToOther: map<SectionId, Option<SectionId>>, otherToThis: map<SectionId, SectionId>)
    requires WellShaped(s)
  {
    match s.kind
    case Added => s.thisSectionID.value in thisToOther && thisToOther[s.thisSectionID.value].None?
    case Removed => s.otherSectionID.value !in otherToThis
    case MovedOther =>
      s.otherSectionID.value in otherToThis && otherToThis[s.otherSectionID.value] == s.thisSectionID.value
    case _ =>
      s.thisSectionID.value in thisToOther && thisToOther[s.thisSectionID.value] == s.otherSectionID
  }

  /** One iteration of the merge loop at cursors `i` and `j`, with the five
      branches tried in the source's order: the slot it emits and the cursors
      after it. */
  function Step(A: seq<SectionId>, B: seq<SectionId>,
                thisToOther: map<SectionId, Option<SectionId>>, otherToThis: map<SectionId, SectionId>,
                i: nat, j: nat): (r: (Slot, nat, nat))
    requires i <= |A| && j <= |B| && (i < |A| || j < |B|)
    requires forall k :: 0 <= k < |A| ==> A[k] in thisToOther
    ensures var (s, i', j') := r;
            && i' <= |A| && j' <= |B| && i + j < i' + j'
            && (if AdvancesThis(s.kind) then i' == i + 1 && s.thisSectionID == Some(A[i]) else i' == i)
            && (if AdvancesOther(s.kind) then j' == j + 1 && s.otherSectionID == Some(B[j]) else j' == j)
            && WellShaped(s) && AgreesWithTables(s, thisToOther, otherToThis)
    ensures i < |A| && thisToOther[A[i]].None? ==> r.0.kind == Added
    ensures r.0.kind == Removed ==> i == |A| || thisToOther[A[i]].Some?
    ensures i < |A| && j < |B| && thisToOther[A[i]] == Some(B[j]) && B[j] in otherToThis ==> r.0.kind == Changed
    ensures r.0.kind == MovedOther ==> i == |A|
  {
    if i < |A| && thisToOther[A[i]].None? then
      (Slot(Some(A[i]), None, Added), i + 1, j)
    else if j < |B| && B[j] !in otherToThis then
      (Slot(None, Some(B[j]), Removed), i, j + 1)
    else if i < |A| && j < |B| && thisToOther[A[i]] == Some(B[j]) then
      (Slot(Some(A[i]), Some(B[j]), Changed), i + 1, j + 1)
    else if i < |A| then
      (Slot(Some(A[i]), thisToOther[A[i]], MovedThis), i + 1, j)
    else
      (Slot(Some(otherToThis[B[j]]), Some(B[j]), MovedOther), i, j + 1)
  }

  /** The two-cursor walk of the merge loop, from cursors `i` and `j`. */
  function Merge(A: seq<SectionId>, B: seq<SectionId>,
                 thisToOther: map<SectionId, Option<SectionId>>, otherToThis: map<SectionId, SectionId>,
                 i: nat, j: nat): (r: seq<Slot>)
    requires i <= |A| && j <= |B|
    requires forall k :: 0 <= k < |A| ==> A[k] in thisToOther
    ensures |A| - i <= |r| && |B| - j <= |r| && |r| <= (|A| - i) + (|B| - j)
    ensures forall k :: 0 <= k < |r| ==> WellShaped(r[k])
    ensures forall k :: 0 <= k < |r| ==> AgreesWithTables(r[k], thisToOther, otherToThis)
    decreases (|A| - i) + (|B| - j)
  {
    if i == |A| && j == |B| then []
    else
      var (s, i', j') := Step(A, B, thisToOther, otherToThis, i, j);
      [s] + Merge(A, B, thisToOther, otherToThis, i', j')
  }

  /** The rows that advance a cursor list each version's sections exactly
      once and in their original order. */
  lemma {:induction false} MergeSides(A: seq<SectionId>, B: seq<SectionId>,
                                      thisToOther: map<SectionId, Option<SectionId>>, otherToThis: map<SectionId, SectionId>,
                                      i: nat, j: nat)
    requires i <= |A| && j <= |B|
    requires forall k :: 0 <= k < |A| ==> A[k] in thisToOther
    ensures ThisSide(Merge(A, B, thisToOther, otherToThis, i, j)) == A[i..]
    ensures OtherSide(Merge(A, B, thisToOther, otherToThis, i, j)) == B[j..]
  {
    MergeThisSide(A, B, thisToOther, otherToThis, i, j);
    MergeOtherSide(A, B, thisToOther, otherToThis, i, j);
  }

  lemma {:induction false} MergeThisSide(A: seq<SectionId>, B: seq<SectionId>,
                                         thisToOther: map<SectionId, Option<SectionId>>, otherToThis: map<SectionId, SectionId>,
                                         i: nat, j: nat)
    requires i <= |A| && j <= |B|
    requires forall k :: 0 <= k < |A| ==> A[k] in thisToOther
    ensures ThisSide(Merge(A, B, thisToOther, otherToThis, i, j)) == A[i..]
    decreases (|A| - i) + (|B| - j)
  {
    if i == |A| && j == |B| {
      return;
    }
    var (s, i', j') := Step(A, B, thisToOther, otherToThis, i, j);
    var rest := Merge(A, B, thisToOther, otherToThis, i', j');
    assert Merge(A, B, thisToOther, otherToThis, i, j) == [s] + rest;
    MergeThisSide(A, B, thisToOther, otherToThis, i', j');
    SidesCons(s, rest);
    if AdvancesThis(s.kind) {
      assert ThisSide([s] + rest) == [A[i]] + A[i + 1..];
      assert A[i..] == [A[i]] + A[i + 1..];
    } else {
      assert ThisSide([s] + rest) == A[i..];
    }
  }

  lemma {:induction false} MergeOtherSide(A: seq<SectionId>, B: seq<SectionId>,
                                          thisToOther: map<SectionId, Option<SectionId>>, otherToThis: map<SectionId, SectionId>,
                                          i: nat, j: nat)
    requires i <= |A| && j <= |B|
    requires forall k :: 0 <= k < |A| ==> A[k] in thisToOther
    ensures OtherSide(Merge(A, B, thisToOther, otherToThis, i, j)) == B[j..]
    decreases (|A| - i) + (|B| - j)
  {
    if i == |A| && j == |B| {
      return;
    }
    var (s, i', j') := Step(A, B, thisToOther, otherToThis, i, j);
    var rest := Merge(A, B, thisToOther, otherToThis, i', j');
    assert Merge(A, B, thisToOther, otherToThis, i, j) == [s] + rest;
    MergeOtherSide(A, B, thisToOther, otherToThis, i', j');
    SidesCons(s, rest);
    if AdvancesOther(s.kind) {
      assert OtherSide([s] + rest) == [B[j]] + B[j + 1..];
      assert B[j..] == [B[j]] + B[j + 1..];
    } else {
      assert OtherSide([s] + rest) == B[j..];
    }
  }

  /** When every section of `A` corresponds, position by position, to the
      section of `B` at the same index, the merge walks both lists in lock
      step and emits one matched row per pair. */
  lemma {:induction false} Lockstep(A: seq<SectionId>, B: seq<SectionId>,
                                    thisToOther: map<SectionId, Option<SectionId>>, otherToThis: map<SectionId, SectionId>,
                                    i: nat)
    requires |A| == |B| && i <= |A|
    requires forall k :: 0 <= k < |A| ==> A[k] in thisToOther && thisToOther[A[k]] == Some(B[k]) && B[k] in otherToThis
    ensures var r := Merge(A, B, thisToOther, otherToThis, i, i);
            && |r| == |A| - i
            && forall k :: 0 <= k < |r| ==> r[k] == Slot(Some(A[i + k]), Some(B[i + k]), Changed)
    decreases |A| - i
  {
    if i < |A| {
      var s := Slot(Some(A[i]), Some(B[i]), Changed);
      assert Step(A, B, thisToOther, otherToThis, i, i) == (s, i + 1, i + 1);
      var rest := Merge(A, B, thisToOther, otherToThis, i + 1, i + 1);
      assert Merge(A, B, thisToOther, otherToThis, i, i) == [s] + rest;
      Lockstep(A, B, thisToOther, otherToThis, i + 1);
      forall k | 0 < k < |A| - i
        ensures ([s] + rest)[k] == Slot(Some(A[i + k]), Some(B[i + k]), Changed)
      {
        assert ([s] + rest)[k] == rest[k - 1];
        assert i + 1 + (k - 1) == i + k;
      }
    }
  }

  lemma SidesCons(s: Slot, rest: seq<Slot>)
    ensures ThisSide([s] + rest) == (if AdvancesThis(s.kind) && s.thisSectionID.Some? then [s.thisSectionID.value] else []) + ThisSide(rest)
    ensures OtherSide([s] + rest) == (if AdvancesOther(s.kind) && s.otherSectionID.Some? then [s.otherSectionID.value] else []) + OtherSide(rest)
  {
    assert ([s] + rest)[1..] == rest;
  }

  /** `thisToOther`: the correspondence of every section of `A` in `otherVersion`. */
  function ThisToOther(secs: map<SectionId, Section>, A: seq<SectionId>, otherVersion: Label): (m: map<SectionId, Option<SectionId>>)
    requires WellFormed(secs) && forall k :: 0 <= k < |A| ==> A[k] in secs
  {
    map a | a in A :: FindOtherSectionID(secs, a, otherVersion)
  }

  /** What a slot of the merged table means in terms of the correspondence
      search: `A` is this version's list, `B` the other's. */
  ghost predicate SlotMeaning(secs: map<SectionId, Section>, A: seq<SectionId>, otherVersion: Label, s: Slot)
    requires WellFormed(secs) && forall k :: 0 <= k < |A| ==> A[k] in secs
  {
    match (s.thisSectionID, s.otherSectionID)
    case (Some(a), None) => a in A && FindOtherSectionID(secs, a, otherVersion).None?
    case (None, Some(b)) => forall k :: 0 <= k < |A| ==> FindOtherSectionID(secs, A[k], otherVersion) != Some(b)
    case (Some(a), Some(b)) => a in A && FindOtherSectionID(secs, a, otherVersion) == Some(b)
    case (None, None) => false
  }

  /** Every row of the merge over the lookup tables of `A` keeps both
      sides in order and says what its lookup facts mean for the sections. */
  lemma MergedMeaning(secs: map<SectionId, Section>, A: seq<SectionId>, B: seq<SectionId>, otherVersion: Label)
    requires WellFormed(secs) && forall k :: 0 <= k < |A| ==> A[k] in secs
    ensures var thisToOther := ThisToOther(secs, A, otherVersion);
            var slots := Merge(A, B, thisToOther, ReverseMap(thisToOther, A), 0, 0);
            && |A| <= |slots| && |B| <= |slots| && |slots| <= |A| + |B|
            && ThisSide(slots) == A
            && OtherSide(slots) == B
            && forall k :: 0 <= k < |slots| ==> WellShaped(slots[k]) && SlotMeaning(secs, A, otherVersion, slots[k])
  {
    var thisToOther := ThisToOther(secs, A, otherVersion);
    var otherToThis := ReverseMap(thisToOther, A);
    var slots := Merge(A, B, thisToOther, otherToThis, 0, 0);
    ReverseMapKeys(thisToOther, A);
    ReverseMapLast(thisToOther, A);
    MergeSides(A, B, thisToOther, otherToThis, 0, 0);
    forall k | 0 <= k < |slots|
      ensures SlotMeaning(secs, A, otherVersion, slots[k])
    {
      assert WellShaped(slots[k]) && AgreesWithTables(slots[k], thisToOther, otherToThis);
    }
  }

  /** `combinedToc`: `None` stands for the exception thrown when either label
      is not a version of the course. */
  function CombinedToc(ci: CourseInfo, thisVersion: Label, otherVersion: Label): (r: Option<seq<Slot>>)
    requires WellFormed(ci.sections) && VersionResolves(ci, thisVersion)
    ensures r.Some? <==> thisVersion in ci.versions && otherVersion in ci.versions
    ensures r.Some? ==>
              var A := ci.versions[thisVersion];
              var B := ci.versions[otherVersion];
              && |A| <= |r.value| && |B| <= |r.value| && |r.value| <= |A| + |B|
              && ThisSide(r.value) == A
              && OtherSide(r.value) == B
              && forall k :: 0 <= k < |r.value| ==> WellShaped(r.value[k]) && SlotMeaning(ci.sections, A, otherVersion, r.value[k])
  {
    if thisVersion !in ci.versions || otherVersion !in ci.versions then None
    else
      var A := ci.versions[thisVersion];
      var B := ci.versions[otherVersion];
      var thisToOther := ThisToOther(ci.sections, A, otherVersion);
      var slots := Merge(A, B, thisToOther, ReverseMap(thisToOther, A), 0, 0);
      MergedMeaning(ci.sections, A, B, otherVersion);
      Some(slots)
  }
}

=== FILE: page_url.dfy ===
/** `parseCoursePageURL`, from the hash of the page address on: the pattern
    `^#\/course\/([^\/]+)\/([^\/]+)\/(\d+)` and its three groups. */
module PageUrl {
  import opened Wrappers
  import opened Strings

  /** The course name, version label and page id a course page shows. */
  datatype PageRef = PageRef(name: string, version: string, pageID: string)

  const Prefix: string := "#/course/"

  /** A `[^\/]+` group. */
  predicate Segment(s: string) {
    |s| > 0 && forall k :: 0 <= k < |s| ==> s[k] != '/'
  }

  /** A `\d+` group. */
  predicate Digits(s: string) {
    |s| > 0 && forall k :: 0 <= k < |s| ==> IsDigit(s[k])
  }

  /** What the three groups of a match can hold. */
  predicate ValidRef(p: PageRef) {
    Segment(p.name) && Segment(p.version) && Digits(p.pageID)
  }

  /** The part of a hash the pattern consumes. */
  function Render(p: PageRef): string {
    Prefix + p.name + "/" + p.version + "/" + p.pageID
  }

  /** What may follow the match: the pattern has no end anchor, but the
      greedy `\d+` has taken every digit. */
  predicate NoMoreDigits(rest: string) {
    |rest| == 0 || !IsDigit(rest[0])
  }

  /** Length of the longest prefix of `s` free of '/'. */
  function SegmentLength(s: string): (n: nat)
    ensures n <= |s| && (forall k :: 0 <= k < n ==> s[k] != '/') && (n < |s| ==> s[n] == '/')
  {
    if |s| == 0 || s[0] == '/' then 0 else 1 + SegmentLength(s[1..])
  }

  /** Length of the longest prefix of `s` made of digits. */
  function DigitRunLength(s: string): (n: nat)
    ensures n <= |s| && (forall k :: 0 <= k < n ==> IsDigit(s[k])) && (n < |s| ==> !IsDigit(s[n]))
  {
    if |s| == 0 || !IsDigit(s[0]) then 0 else 1 + DigitRunLength(s[1..])
  }

  /** `^#\/course\/`: the text after the fixed prefix. */
  function StripPrefix(hash: string): (r: Option<string>)
    ensures r.Some? ==> hash == Prefix + r.value
  {
    if |hash| < |Prefix| || hash[..|Prefix|] != Prefix then None
    else
      assert hash == hash[..|Prefix|] + hash[|Prefix|..];
      Some(hash[|Prefix|..])
  }

  /** `([^\/]+)\/`: a greedy group and the slash after it, then the rest. */
  function TakeSegment(s: string): (r: Option<(string, string)>)
    ensures r.Some? ==> Segment(r.value.0) && s == r.value.0 + "/" + r.value.1
  {
    var n := SegmentLength(s);
    if n == 0 || n == |s| then None
    else
      assert s == s[..n] + "/" + s[n + 1..];
      Some((s[..n], s[n + 1..]))
  }

  /** `(\d+)`: a greedy group of digits, then the rest. */
  function TakeDigits(s: string): (r: Option<(string, string)>)
    ensures r.Some? ==> Digits(r.value.0) && NoMoreDigits(r.value.1) && s == r.value.0 + r.value.1
  {
    var n := DigitRunLength(s);
    if n == 0 then None
    else
      assert s == s[..n] + s[n..];
      Some((s[..n], s[n..]))
  }

  /** `parseCoursePageURL` applied to the hash of the address; `None` stands
      for the `undefined` returned when the pattern does not match. */
  function ParseCoursePageURL(hash: string): (r: Option<PageRef>)
    ensures r.Some? ==> ValidRef(r.value) && exists rest :: hash == Render(r.value) + rest && NoMoreDigits(rest)
  {
    match StripPrefix(hash)
    case None => None
    case Some(s1) =>
      match TakeSegment(s1)
      case None => None
      case Some((name, s2)) =>
        match TakeSegment(s2)
        case None => None
        case Some((version, s3)) =>
          match TakeDigits(s3)
          case None => None
          case Some((pageID, rest)) =>
            var p := PageRef(name, version, pageID);
            RenderSplit(p, rest);
            Some(p)
  }

  /** Every hash that starts with a rendered page reference, followed by
      anything that does not continue its digits, parses back to it. */
  lemma ParseRender(p: PageRef, rest: string)
    requires ValidRef(p) && NoMoreDigits(rest)
    ensures ParseCoursePageURL(Render(p) + rest) == Some(p)
  {
    var s3 := p.pageID + rest;
    var s2 := p.version + "/" + s3;
    var s1 := p.name + "/" + s2;
    RenderSplit(p, rest);
    StripPrefixOf(s1);
    TakeSegmentOf(p.name, s2);
    TakeSegmentOf(p.version, s3);
    TakeDigitsOf(p.pageID, rest);
  }

  /** The rendered reference nests as the parser takes it apart. */
  lemma RenderSplit(p: PageRef, rest: string)
    ensures Render(p) + rest == Prefix + (p.name + "/" + (p.version + "/" + (p.pageID + rest)))
  {
    var a := p.version + "/";
    var b := p.name + "/";
    assert a + p.pageID + rest == a + (p.pageID + rest);
    assert b + (a + p.pageID) + rest == b + (a + (p.pageID + rest));
    assert Prefix + (b + (a + p.pageID)) + rest == Prefix + (b + (a + (p.pageID + rest)));
    assert Render(p) == Prefix + (b + (a + p.pageID));
  }

  lemma StripPrefixOf(s: string)
    ensures StripPrefix(Prefix + s) == Some(s)
  {
    assert (Prefix + s)[..|Prefix|] == Prefix;
  }

  lemma TakeSegmentOf(seg: string, rest: string)
    requires Segment(seg)
    ensures TakeSegment(seg + "/" + rest) == Some((seg, rest))
  {
    SegmentLengthOf(seg, "/" + rest);
    var s := seg + "/" + rest;
    assert s == seg + ("/" + rest);
    assert s[..|seg|] == seg;
    assert s[|seg| + 1..] == rest;
  }

  lemma TakeDigitsOf(digits: string, rest: string)
    requires Digits(digits) && NoMoreDigits(rest)
    ensures TakeDigits(digits + rest) == Some((digits, rest))
  {
    DigitRunLengthOf(digits, rest);
    assert (digits + rest)[..|digits|] == digits;
    assert (digits + rest)[|digits|..] == rest;
  }

  lemma {:induction false} SegmentLengthOf(seg: string, rest: string)
    requires (forall k :: 0 <= k < |seg| ==> seg[k] != '/') && |rest| > 0 && rest[0] == '/'
    ensures SegmentLength(seg + rest) == |seg|
    decreases |seg|
  {
    if |seg| > 0 {
      assert (seg + rest)[1..] == seg[1..] + rest;
      SegmentLengthOf(seg[1..], rest);
    }
  }

  lemma {:induction false} DigitRunLengthOf(digits: string, rest: string)
    requires (forall k :: 0 <= k < |digits| ==> IsDigit(digits[k])) && NoMoreDigits(rest)
    ensures DigitRunLength(digits + rest) == |digits|
    decreases |digits|
  {
    if |digits| > 0 {
      assert (digits + rest)[1..] == digits[1..] + rest;
      DigitRunLengthOf(digits[1..], rest);
    }
  }
}

=== FILE: parser.dfy ===
/** `parseCourseInfo`: from the raw list of version snapshots to the course graph. */
module Parser {
  import opened Wrappers
  import opened Course

  /** A section as the metadata service lists it. */
  datatype RawSection = RawSection(id: SectionId, title: string, prevVersionSectionId: Option<SectionId>)

  /** One snapshot: its label, the course's active label, and its sections in order. */
  datatype RawVersion = RawVersion(version: Label, activeVersion: Label, sections: seq<RawSection>)

  /** The TypeError thrown when a prev link names a section that was never registered. */
  datatype ParseError = DanglingPrevLink

  /** The versions, sections and active label after the registration loop,
      before the prev links are inverted. */
  datatype Registry = Registry(
    versions: map<Label, seq<SectionId>>,
    sections: map<SectionId, Section>,
    activeVersion: Option<Label>)

  function Ids(rs: seq<RawSection>): (ids: seq<SectionId>)
    ensures |ids| == |rs| && forall k :: 0 <= k < |rs| ==> ids[k] == rs[k].id
  {
    seq(|rs|, k requires 0 <= k < |rs| => rs[k].id)
  }

  /** Some snapshot lists `id`. */
  ghost predicate Listed(raw: seq<RawVersion>, id: SectionId) {
    exists k, m :: 0 <= k < |raw| && 0 <= m < |raw[k].sections| && raw[k].sections[m].id == id
  }

  /** Some snapshot is labelled `v`. */
  ghost predicate Labelled(raw: seq<RawVersion>, v: Label) {
    exists k :: 0 <= k < |raw| && raw[k].version == v
  }

  /** Snapshot `k` is the first one labelled as it is. */
  ghost predicate FirstLabelled(raw: seq<RawVersion>, k: int) {
    0 <= k < |raw| && forall k' :: 0 <= k' < k ==> raw[k'].version != raw[k].version
  }

  /** The entry registered for raw section `rs` of snapshot `version`. */
  function Fresh(rs: RawSection, version: Label): Section {
    Section(rs.title, rs.prevVersionSectionId, None, version)
  }

  /** No later position of `rs` repeats the id at position `m`. */
  ghost predicate LastIn(rs: seq<RawSection>, m: int) {
    0 <= m < |rs| && forall m' :: m < m' < |rs| ==> rs[m'].id != rs[m].id
  }

  /** Section `m` of snapshot `k` is the one whose entry survives: the loop
      runs from the last snapshot to the first and through each snapshot in
      order, so no earlier snapshot and no later position lists its id. */
  ghost predicate Survives(raw: seq<RawVersion>, k: int, m: int) {
    && 0 <= k < |raw|
    && LastIn(raw[k].sections, m)
    && forall k', m' :: 0 <= k' < k && 0 <= m' < |raw[k'].sections| ==> raw[k'].sections[m'].id != raw[k].sections[m].id
  }

  ghost predicate NoNextLinks(secs: map<SectionId, Section>) {
    forall id :: id in secs ==> secs[id].nextVersionID.None?
  }

  /** The inner loop: one entry per raw section, in order, a later duplicate
      overwriting an earlier one. */
  function AddSections(secs: map<SectionId, Section>, rs: seq<RawSection>, version: Label): (r: map<SectionId, Section>)
    ensures forall id :: id in r <==> id in secs || exists m :: 0 <= m < |rs| && rs[m].id == id
    ensures NoNextLinks(secs) ==> NoNextLinks(r)
    decreases |rs|
  {
    if |rs| == 0 then secs
    else
      var rest := AddSections(secs, rs[..|rs| - 1], version);
      assert forall m :: 0 <= m < |rs| - 1 ==> rs[..|rs| - 1][m] == rs[m];
      rest[rs[|rs| - 1].id := Fresh(rs[|rs| - 1], version)]
  }

  /** Ids the snapshot does not list keep their entries. */
  lemma {:induction false} AddSectionsKeeps(secs: map<SectionId, Section>, rs: seq<RawSection>, version: Label)
    ensures forall id :: id in secs && (forall m :: 0 <= m < |rs| ==> rs[m].id != id) ==>
              AddSections(secs, rs, version)[id] == secs[id]
    decreases |rs|
  {
    if |rs| > 0 {
      var init := rs[..|rs| - 1];
      AddSectionsKeeps(secs, init, version);
      forall id | id in secs && (forall m :: 0 <= m < |rs| ==> rs[m].id != id)
        ensures AddSections(secs, rs, version)[id] == secs[id]
      {
        forall m | 0 <= m < |init|
          ensures init[m].id != id
        {
          assert init[m] == rs[m];
        }
      }
    }
  }

  /** The entry of a listed id is made from its last occurrence in the snapshot. */
  lemma {:induction false} AddSectionsLast(secs: map<SectionId, Section>, rs: seq<RawSection>, version: Label, m: int)
    requires LastIn(rs, m)
    ensures AddSections(secs, rs, version)[rs[m].id] == Fresh(rs[m], version)
    decreases |rs|
  {
    var init := rs[..|rs| - 1];
    var last := rs[|rs| - 1];
    var rest := AddSections(secs, init, version);
    assert AddSections(secs, rs, version) == rest[last.id := Fresh(last, version)];
    if m < |rs| - 1 {
      assert init[m] == rs[m];
      forall m' | m < m' < |init|
        ensures init[m'].id != init[m].id
      {
        assert init[m'] == rs[m'];
      }
      AddSectionsLast(secs, init, version, m);
    }
  }

  /** The outer loop, which runs from `raw[|raw|-1]` down to `raw[0]`:
      `raw[0]` is processed last, so its label, entries and active label win. */
  function Register(raw: seq<RawVersion>): (reg: Registry)
    ensures reg.activeVersion == if |raw| == 0 then None else Some(raw[0].activeVersion)
    ensures NoNextLinks(reg.sections)
  {
    if |raw| == 0 then Registry(map[], map[], None)
    else
      var rest := Register(raw[1..]);
      var r := raw[0];
      Registry(rest.versions[r.version := Ids(r.sections)], AddSections(rest.sections, r.sections, r.version), Some(r.activeVersion))
  }

  /** One version entry per label, listing the ids of the first snapshot with
      that label in raw order. */
  lemma {:induction false} RegisterVersions(raw: seq<RawVersion>)
    ensures forall v :: v in Register(raw).versions <==> Labelled(raw, v)
    ensures forall k :: FirstLabelled(raw, k) ==>
              raw[k].version in Register(raw).versions && Register(raw).versions[raw[k].version] == Ids(raw[k].sections)
  {
    if |raw| > 0 {
      RegisterVersions(raw[1..]);
      forall v | Labelled(raw, v) && v != raw[0].version
        ensures Labelled(raw[1..], v)
      {
        var k :| 0 <= k < |raw| && raw[k].version == v;
        assert raw[1..][k - 1] == raw[k];
      }
      forall k | FirstLabelled(raw, k) && k > 0
        ensures FirstLabelled(raw[1..], k - 1)
      {
        forall k' | 0 <= k' < k - 1 ensures raw[1..][k'].version != raw[1..][k - 1].version {
          assert raw[1..][k'] == raw[k' + 1];
        }
      }
    }
  }

  /** One section entry per listed id; the surviving raw section decides its
      title, prev link and version. */
  lemma {:induction false} RegisterSections(raw: seq<RawVersion>)
    ensures forall id :: id in Register(raw).sections <==> Listed(raw, id)
    ensures forall k, m :: Survives(raw, k, m) ==>
              raw[k].sections[m].id in Register(raw).sections &&
              Register(raw).sections[raw[k].sections[m].id] == Fresh(raw[k].sections[m], raw[k].version)
  {
    if |raw| > 0 {
      RegisterSections(raw[1..]);
      AddSectionsKeeps(Register(raw[1..]).sections, raw[0].sections, raw[0].version);
      forall m | LastIn(raw[0].sections, m)
        ensures AddSections(Register(raw[1..]).sections, raw[0].sections, raw[0].version)[raw[0].sections[m].id]
                == Fresh(raw[0].sections[m], raw[0].version)
      {
        AddSectionsLast(Register(raw[1..]).sections, raw[0].sections, raw[0].version, m);
      }
      forall id | Listed(raw, id)
        ensures id in Register(raw).sections
      {
        var k, m :| 0 <= k < |raw| && 0 <= m < |raw[k].sections| && raw[k].sections[m].id == id;
        if k > 0 {
          assert raw[1..][k - 1] == raw[k];
        }
      }
      forall id | id in Register(raw[1..]).sections
        ensures Listed(raw, id)
      {
        var k, m :| 0 <= k < |raw[1..]| && 0 <= m < |raw[1..][k].sections| && raw[1..][k].sections[m].id == id;
        assert raw[k + 1] == raw[1..][k];
      }
      forall k, m | Survives(raw, k, m) && k > 0
        ensures Survives(raw[1..], k - 1, m)
      {
        assert raw[1..][k - 1] == raw[k];
        forall k', m' | 0 <= k' < k - 1 && 0 <= m' < |raw[1..][k'].sections|
          ensures raw[1..][k'].sections[m'].id != raw[k].sections[m].id
        {
          assert raw[1..][k'] == raw[k' + 1];
        }
      }
    }
  }

  /** Every id a version entry lists has a section entry. */
  lemma {:induction false} RegisterVersionsResolve(raw: seq<RawVersion>)
    ensures forall v, k :: v in Register(raw).versions && 0 <= k < |Register(raw).versions[v]| ==>
              Register(raw).versions[v][k] in Register(raw).sections
  {
    if |raw| > 0 {
      RegisterVersionsResolve(raw[1..]);
      var reg := Register(raw);
      forall v, k | v in reg.versions && 0 <= k < |reg.versions[v]|
        ensures reg.versions[v][k] in reg.sections
      {
        if v == raw[0].version {
          assert reg.versions[v][k] == raw[0].sections[k].id;
        }
      }
    }
  }

  /** Every registered prev link names a registered section. */
  ghost predicate PrevLinksResolve(secs: map<SectionId, Section>) {
    forall id :: id in secs && secs[id].prevVersionID.Some? ==> secs[id].prevVersionID.value in secs
  }

  /** Every next link is answered by a prev link pointing back. */
  ghost predicate NextConsistent(secs: map<SectionId, Section>) {
    forall id :: id in secs && secs[id].nextVersionID.Some? ==>
      secs[id].nextVersionID.value in secs && secs[secs[id].nextVersionID.value].prevVersionID == Some(id)
  }

  /** The two entries differ at most in their next link. */
  predicate SameButNext(a: Section, b: Section) {
    a.title == b.title && a.prevVersionID == b.prevVersionID && a.courseVersionID == b.courseVersionID
  }

  /** The inversion pass: for each id of `order` (the enumeration order of the
      sections' keys) that has a prev link, set the prev section's next link
      to it. */
  function Invert(secs: map<SectionId, Section>, order: seq<SectionId>): (r: Result<map<SectionId, Section>, ParseError>)
    requires forall k :: 0 <= k < |order| ==> order[k] in secs
    ensures r.Success? <==>
              forall k :: 0 <= k < |order| && secs[order[k]].prevVersionID.Some? ==> secs[order[k]].prevVersionID.value in secs
    ensures r.Success? ==> r.value.Keys == secs.Keys
    ensures r.Success? ==> forall id :: id in secs ==> SameButNext(secs[id], r.value[id])
    ensures r.Success? ==> forall id :: id in secs && secs[id].nextVersionID.Some? ==> r.value[id].nextVersionID.Some?
    ensures r.Success? ==> forall k :: 0 <= k < |order| && secs[order[k]].prevVersionID.Some? ==>
              r.value[secs[order[k]].prevVersionID.value].nextVersionID.Some?
    ensures r.Success? && NextConsistent(secs) ==> NextConsistent(r.value)
    decreases |order|
  {
    if |order| == 0 then Success(secs)
    else
      var id := order[0];
      match secs[id].prevVersionID
      case None => Invert(secs, order[1..])
      case Some(p) =>
        if p !in secs then Failure(DanglingPrevLink)
        else
          var secs' := secs[p := secs[p].(nextVersionID := Some(id))];
          InvertStep(secs, id, p);
          assert forall k :: 0 <= k < |order[1..]| ==> order[1..][k] == order[k + 1];
          Invert(secs', order[1..])
  }

  /** One step of the inversion pass: pointing `p`'s next link at `id`,
      whose prev link is `p`, keeps every other fact the pass relies on. */
  lemma InvertStep(secs: map<SectionId, Section>, id: SectionId, p: SectionId)
    requires id in secs && p in secs && secs[id].prevVersionID == Some(p)
    ensures var secs' := secs[p := secs[p].(nextVersionID := Some(id))];
            && secs'.Keys == secs.Keys
            && (forall x :: x in secs ==> SameButNext(secs[x], secs'[x]))
            && (forall x :: x in secs && secs[x].nextVersionID.Some? ==> secs'[x].nextVersionID.Some?)
            && secs'[p].nextVersionID.Some?
            && (NextConsistent(secs) ==> NextConsistent(secs'))
  {
  }

  /** `parseCourseInfo`. `order` is the order in which `for...in` enumerates
      the registered section ids; it only decides which of two sections that
      share a prev section becomes that section's next. */
  function ParseCourseInfo(raw: seq<RawVersion>, order: seq<SectionId>): (r: Result<CourseInfo, ParseError>)
    requires forall id :: id in order <==> id in Register(raw).sections
    ensures r.Success? <==> PrevLinksResolve(Register(raw).sections)
    ensures r.Success? ==> NextConsistent(r.value.sections)
  {
    var reg := Register(raw);
    var secs :- Invert(reg.sections, order);
    Success(CourseInfo(reg.versions, secs, reg.activeVersion))
  }

  /** The active label of a parsed course is that of the first snapshot. */
  lemma ParseActive(raw: seq<RawVersion>, order: seq<SectionId>)
    requires forall id :: id in order <==> id in Register(raw).sections
    requires ParseCourseInfo(raw, order).Success?
    ensures ParseCourseInfo(raw, order).value.activeVersion == if |raw| == 0 then None else Some(raw[0].activeVersion)
  {
  }

  /** The versions, the sections and their titles, prev links and labels are
      those the snapshots list. */
  lemma {:induction false} ParseContents(raw: seq<RawVersion>, order: seq<SectionId>)
    requires forall id :: id in order <==> id in Register(raw).sections
    requires ParseCourseInfo(raw, order).Success?
    ensures var ci := ParseCourseInfo(raw, order).value;
            && (forall v :: v in ci.versions <==> Labelled(raw, v))
            && (forall k :: FirstLabelled(raw, k) ==> ci.versions[raw[k].version] == Ids(raw[k].sections))
            && (forall id :: id in ci.sections <==> Listed(raw, id))
            && (forall k, m :: Survives(raw, k, m) ==>
                  SameButNext(ci.sections[raw[k].sections[m].id], Fresh(raw[k].sections[m], raw[k].version)))
  {
    RegisterVersions(raw);
    RegisterSections(raw);
  }

  /** After inversion, every next link points at a section whose prev link
      points back, every section named by a prev link has a next link, all
      links resolve, and every listed id has an entry. */
  lemma {:induction false} ParseLinks(raw: seq<RawVersion>, order: seq<SectionId>)
    requires forall id :: id in order <==> id in Register(raw).sections
    requires ParseCourseInfo(raw, order).Success?
    ensures var ci := ParseCourseInfo(raw, order).value;
            && NextConsistent(ci.sections)
            && (forall id :: id in ci.sections && ci.sections[id].prevVersionID.Some? ==>
                  ci.sections[ci.sections[id].prevVersionID.value].nextVersionID.Some?)
            && LinksResolve(ci.sections)
            && (forall v :: VersionResolves(ci, v))
  {
    var reg := Register(raw);
    var ci := ParseCourseInfo(raw, order).value;
    RegisterVersionsResolve(raw);
    forall id | id in ci.sections && ci.sections[id].prevVersionID.Some?
      ensures ci.sections[ci.sections[id].prevVersionID.value].nextVersionID.Some?
    {
      assert id in order;
      var k :| 0 <= k < |order| && order[k] == id;
    }
  }

  /** `rank` strictly decreases along every prev link. */
  ghost predicate PrevRanked(secs: map<SectionId, Section>, rank: map<SectionId, nat>) {
    && (forall id :: id in secs ==> id in rank)
    && (forall id :: id in secs && secs[id].prevVersionID.Some? && secs[id].prevVersionID.value in secs ==>
          rank[secs[id].prevVersionID.value] < rank[id])
  }

  lemma {:induction false} RankBound(rank: map<SectionId, nat>, ids: set<SectionId>) returns (b: nat)
    ensures forall id :: id in ids && id in rank ==> rank[id] <= b
    decreases ids
  {
    if ids == {} {
      return 0;
    }
    var x :| x in ids;
    b := RankBound(rank, ids - {x});
    if x in rank && rank[x] > b {
      b := rank[x];
    }
  }

  /** A parsed course whose prev links never cycle is well formed: links
      resolve and the next links, being inverted prev links, never cycle
      either, so the correspondence search terminates. */
  lemma {:induction false} ParseWellFormed(raw: seq<RawVersion>, order: seq<SectionId>, rank: map<SectionId, nat>)
    requires forall id :: id in order <==> id in Register(raw).sections
    requires ParseCourseInfo(raw, order).Success?
    requires PrevRanked(ParseCourseInfo(raw, order).value.sections, rank)
    ensures WellFormed(ParseCourseInfo(raw, order).value.sections)
  {
    var secs := ParseCourseInfo(raw, order).value.sections;
    ParseLinks(raw, order);
    var b := RankBound(rank, secs.Keys);
    assert Ranking(secs, rank, b);
  }
}

=== FILE: scenarios.dfy ===
/** Worked examples of the comparison flow on small courses. */
module Scenarios {
  import opened Wrappers
  import opened Course
  import opened Aligner
  import opened Merger
  import opened Selector
  import Strings

  /** Version "v1" lists s1, s2, s3; version "v2" lists t1 and t3, derived
      from s1 and s3; s2 was dropped. The ids are parameters so that the
      proofs below need only that they are distinct. */
  function ThreeSectionCourseOf(s1: SectionId, s2: SectionId, s3: SectionId, t1: SectionId, t3: SectionId): CourseInfo {
    CourseInfo(map["v1" := [s1, s2, s3], "v2" := [t1, t3]], ThreeSectionMap(s1, s2, s3, t1, t3), Some("v2"))
  }

  function ThreeSectionMap(s1: SectionId, s2: SectionId, s3: SectionId, t1: SectionId, t3: SectionId): map<SectionId, Section> {
    map[
      s1 := Section("One", None, Some(t1), "v1"),
      s2 := Section("Two", None, None, "v1"),
      s3 := Section("Three", None, Some(t3), "v1"),
      t1 := Section("One", Some(s1), None, "v2"),
      t3 := Section("Three", Some(s3), None, "v2")]
  }

  /** The example with concrete ids. */
  function ThreeSectionCourse(): CourseInfo {
    ThreeSectionCourseOf("s1", "s2", "s3", "t1", "t3")
  }

  ghost predicate Distinct5(s1: SectionId, s2: SectionId, s3: SectionId, t1: SectionId, t3: SectionId) {
    && s1 != s2 && s1 != s3 && s1 != t1 && s1 != t3 && s2 != s3
    && s2 != t1 && s2 != t3 && s3 != t1 && s3 != t3 && t1 != t3
  }

  lemma ConcreteIdsDistinct()
    ensures Distinct5("s1", "s2", "s3", "t1", "t3")
  {
    assert "s1"[1] != "s2"[1] && "s1"[1] != "s3"[1] && "s2"[1] != "s3"[1] && "t1"[1] != "t3"[1];
    assert "s1"[0] != "t1"[0];
  }

  /** Whatever the five distinct ids are, the example's links resolve and
      ranking v1 below v2 orders them. */
  lemma ThreeSectionMapWellFormed(s1: SectionId, s2: SectionId, s3: SectionId, t1: SectionId, t3: SectionId)
    requires Distinct5(s1, s2, s3, t1, t3)
    ensures WellFormed(ThreeSectionMap(s1, s2, s3, t1, t3))
  {
    var secs := ThreeSectionMap(s1, s2, s3, t1, t3);
    var rank := map[s1 := 0, s2 := 0, s3 := 0, t1 := 1, t3 := 1];
    assert rank[s1] == 0 && rank[s2] == 0 && rank[s3] == 0 && rank[t1] == 1 && rank[t3] == 1;
    forall id | id in secs
      ensures id in rank && rank[id] <= 1
      ensures secs[id].prevVersionID.Some? ==> secs[id].prevVersionID.value in secs && rank[secs[id].prevVersionID.value] < rank[id]
      ensures secs[id].nextVersionID.Some? ==> secs[id].nextVersionID.value in secs && rank[id] < rank[secs[id].nextVersionID.value]
    {
      if id == s1 {
        assert secs[id].prevVersionID == None && secs[id].nextVersionID == Some(t1);
      } else if id == s2 {
        assert secs[id].prevVersionID == None && secs[id].nextVersionID == None;
      } else if id == s3 {
        assert secs[id].prevVersionID == None && secs[id].nextVersionID == Some(t3);
      } else if id == t1 {
        assert secs[id].prevVersionID == Some(s1) && secs[id].nextVersionID == None;
      } else {
        assert secs[id].prevVersionID == Some(s3) && secs[id].nextVersionID == None;
      }
    }
    assert LinksResolve(secs);
    assert Ranking(secs, rank, 1);
  }

  /** s1 and s3 are found forward along their next links; s2 has none. */
  lemma ThreeSectionCorrespondencesOf(s1: SectionId, s2: SectionId, s3: SectionId, t1: SectionId, t3: SectionId)
    requires Distinct5(s1, s2, s3, t1, t3)
    ensures WellFormed(ThreeSectionMap(s1, s2, s3, t1, t3))
    ensures FindOtherSectionID(ThreeSectionMap(s1, s2, s3, t1, t3), s1, "v2") == Some(t1)
    ensures FindOtherSectionID(ThreeSectionMap(s1, s2, s3, t1, t3), s2, "v2") == None
    ensures FindOtherSectionID(ThreeSectionMap(s1, s2, s3, t1, t3), s3, "v2") == Some(t3)
  {
    ThreeSectionMapWellFormed(s1, s2, s3, t1, t3);
    var secs := ThreeSectionMap(s1, s2, s3, t1, t3);
    assert "v1"[1] != "v2"[1];
    assert secs[s1].courseVersionID == "v1" && secs[s2].courseVersionID == "v1" && secs[s3].courseVersionID == "v1";
    assert Walk(secs, t1, "v2", Forward) == Some(t1);
    assert Walk(secs, t3, "v2", Forward) == Some(t3);
  }

  /** The same with the concrete ids. */
  lemma ThreeSectionCorrespondences()
    ensures WellFormed(ThreeSectionCourse().sections)
    ensures FindOtherSectionID(ThreeSectionCourse().sections, "s1", "v2") == Some("t1")
    ensures FindOtherSectionID(ThreeSectionCourse().sections, "s2", "v2") == None
    ensures FindOtherSectionID(ThreeSectionCourse().sections, "s3", "v2") == Some("t3")
  {
    ConcreteIdsDistinct();
    ThreeSectionCorrespondencesOf("s1", "s2", "s3", "t1", "t3");
  }

  /** The merge loop on the example's lists and lookup tables. */
  lemma ThreeSectionMerge(s1: SectionId, s2: SectionId, s3: SectionId, t1: SectionId, t3: SectionId,
                          t2o: map<SectionId, Option<SectionId>>, o2t: map<SectionId, SectionId>)
    requires s1 in t2o && s2 in t2o && s3 in t2o
    requires t2o[s1] == Some(t1) && t2o[s2] == None && t2o[s3] == Some(t3)
    requires t1 in o2t && t3 in o2t
    ensures Merge([s1, s2, s3], [t1, t3], t2o, o2t, 0, 0) == [
              Slot(Some(s1), Some(t1), Changed),
              Slot(Some(s2), None, Added),
              Slot(Some(s3), Some(t3), Changed)]
  {
    var A := [s1, s2, s3];
    var B := [t1, t3];
    assert Step(A, B, t2o, o2t, 2, 1) == (Slot(Some(s3), Some(t3), Changed), 3, 2);
    assert Step(A, B, t2o, o2t, 1, 1) == (Slot(Some(s2), None, Added), 2, 1);
    assert Step(A, B, t2o, o2t, 0, 0) == (Slot(Some(s1), Some(t1), Changed), 1, 1);
    assert Merge(A, B, t2o, o2t, 3, 2) == [];
    assert Merge(A, B, t2o, o2t, 2, 1) == [Slot(Some(s3), Some(t3), Changed)];
    assert Merge(A, B, t2o, o2t, 1, 1) == [Slot(Some(s2), None, Added)] + Merge(A, B, t2o, o2t, 2, 1);
  }

  /** The dropped section gets a row of its own between the two matched rows. */
  lemma DroppedSectionScenarioOf(s1: SectionId, s2: SectionId, s3: SectionId, t1: SectionId, t3: SectionId)
    requires Distinct5(s1, s2, s3, t1, t3)
    ensures WellFormed(ThreeSectionMap(s1, s2, s3, t1, t3))
    ensures CombinedToc(ThreeSectionCourseOf(s1, s2, s3, t1, t3), "v1", "v2") == Some([
              Slot(Some(s1), Some(t1), Changed),
              Slot(Some(s2), None, Added),
              Slot(Some(s3), Some(t3), Changed)])
  {
    ThreeSectionCorrespondencesOf(s1, s2, s3, t1, t3);
    var ci := ThreeSectionCourseOf(s1, s2, s3, t1, t3);
    assert "v1"[1] != "v2"[1];
    var A := ci.versions["v1"];
    var B := ci.versions["v2"];
    assert A == [s1, s2, s3] && B == [t1, t3];
    var t2o := ThisToOther(ci.sections, A, "v2");
    var o2t := ReverseMap(t2o, A);
    ReverseMapKeys(t2o, A);
    assert t2o[s1] == Some(t1) && t2o[s2] == None && t2o[s3] == Some(t3);
    assert t1 in o2t by { assert t2o[A[0]] == Some(t1); }
    assert t3 in o2t by { assert t2o[A[2]] == Some(t3); }
    ThreeSectionMerge(s1, s2, s3, t1, t3, t2o, o2t);
  }

  /** The same with the concrete ids. */
  lemma DroppedSectionScenario()
    ensures WellFormed(ThreeSectionCourse().sections) && CombinedToc(ThreeSectionCourse(), "v1", "v2") == Some([
              Slot(Some("s1"), Some("t1"), Changed),
              Slot(Some("s2"), None, Added),
              Slot(Some("s3"), Some("t3"), Changed)])
  {
    ConcreteIdsDistinct();
    DroppedSectionScenarioOf("s1", "s2", "s3", "t1", "t3");
  }

  /** Three dated versions, the newest active. */
  function DatedCourse(): CourseInfo {
    CourseInfo(map["2023-06-01" := [], "2023-01-01" := [], "2024-01-01" := []], map[], Some("2024-01-01"))
  }

  /** How the example labels sort. */
  lemma DatedLabelsOrder()
    ensures Better(Floor, "2023-06-01", "2024-01-01")
    ensures Better(Floor, "2023-01-01", "2024-01-01")
    ensures Strings.LexLess("2023-01-01", "2023-06-01")
  {
    assert Strings.LexLess("0000-00-00", "2023-06-01");
    assert Strings.LexLess("0000-00-00", "2023-01-01");
    assert Strings.LexLess("2023-06-01", "2024-01-01");
    assert Strings.LexLess("2023-01-01", "2024-01-01");
  }

  /** "2023-06-01" is the newest predecessor of "2024-01-01" in the example. */
  lemma DatedDefaultBelow()
    ensures IsDefaultBelow(DatedCourse().versions.Keys, "2024-01-01", "2023-06-01")
  {
    var vs := DatedCourse().versions.Keys;
    assert "2023-06-01" in vs && Better(Floor, "2023-06-01", "2024-01-01") by {
      DatedLabelsOrder();
    }
    forall v | v in vs
      ensures Better(Floor, v, "2024-01-01") ==> !Strings.LexLess("2023-06-01", v)
    {
      assert v == "2023-06-01" || v == "2023-01-01" || v == "2024-01-01";
      if v == "2023-01-01" {
        DatedLabelsOrder();
        Strings.LexLessAsymmetric("2023-01-01", "2023-06-01");
      } else if v == "2023-06-01" {
        Strings.LexLessIrreflexive("2023-06-01");
      } else {
        Strings.LexLessIrreflexive("2024-01-01");
      }
    }
    assert "2023-06-01"[0] != Floor[0];
  }

  /** On the active version the default is its newest predecessor; on an
      older version it is the active one. */
  lemma DatedCourseDefaults(keys: seq<Label>)
    requires forall v :: v in keys <==> v in DatedCourse().versions
    ensures ChooseOtherVersion(DatedCourse(), "2024-01-01", keys) == Some("2023-06-01")
    ensures ChooseOtherVersion(DatedCourse(), "2023-01-01", keys) == Some("2024-01-01")
  {
    var ci := DatedCourse();
    DatedDefaultBelow();
    DefaultBelowUnique(ci.versions.Keys, "2024-01-01",
      ChooseOtherVersion(ci, "2024-01-01", keys).value, "2023-06-01");
  }

  /** A course with a single version: on it the default is the floor label,
      which names no version, so no merged table can be built. */
  lemma SingleVersionDefault(ci: CourseInfo, active: Label, keys: seq<Label>)
    requires ci.activeVersion == Some(active) && ci.versions.Keys == {active} && active != Floor
    requires forall v :: v in keys <==> v in ci.versions
    requires WellFormed(ci.sections) && VersionResolves(ci, active)
    ensures ChooseOtherVersion(ci, active, keys) == Some(Floor)
    ensures CombinedToc(ci, active, Floor).None?
  {
    Strings.LexLessIrreflexive(active);
  }
}

=== FILE: selector.dfy ===
/** `chooseOtherVersion` and the storage-free part of `getOtherVersion`: which
    version the merged table compares the current one with. */
module Selector {
  import opened Wrappers
  import opened Strings
  import opened Course

  /** The label the scan for the newest older version starts from. */
  const Floor: Label := "0000-00-00"

  /** The scan replaces `best` by `v`: `v` sorts below `active` and above `best`. */
  predicate Better(best: Label, v: Label, active: Label) {
    LexLess(v, active) && LexLess(best, v)
  }

  /** The scan over the version labels, in the order `for...in` visits them. */
  function MaxBelow(keys: seq<Label>, active: Label, best: Label): (r: Label)
    ensures r == best || (r in keys && Better(best, r, active))
    ensures forall k :: 0 <= k < |keys| ==> !Better(r, keys[k], active)
    decreases |keys|
  {
    if |keys| == 0 then best
    else
      var best' := if Better(best, keys[0], active) then keys[0] else best;
      var r := MaxBelow(keys[1..], active, best');
      ScanStep(best, keys[0], active, r);
      assert forall k :: 1 <= k < |keys| ==> keys[k] == keys[1..][k - 1];
      r
  }

  /** One visit of the scan: whatever the rest of the scan returns from the
      updated best is still no worse than the visited label `v`. */
  lemma ScanStep(best: Label, v: Label, active: Label, r: Label)
    requires var best' := if Better(best, v, active) then v else best;
             r == best' || Better(best', r, active)
    ensures r == best || Better(best, r, active)
    ensures !Better(r, v, active)
  {
    if Better(best, v, active) {
      if r != v {
        LexLessTransitive(best, v, r);
        LexLessAsymmetric(v, r);
      } else {
        LexLessIrreflexive(r);
      }
    } else if r != best && Better(r, v, active) {
      LexLessTransitive(best, r, v);
    }
  }

  /** `r` is what the scan should find among `versions` below `active`: the
      greatest label strictly between the floor and `active`, or the floor
      itself when there is none. */
  ghost predicate IsDefaultBelow(versions: set<Label>, active: Label, r: Label) {
    || (r == Floor && forall v :: v in versions ==> !Better(Floor, v, active))
    || (r in versions && Better(Floor, r, active) &&
        forall v :: v in versions && Better(Floor, v, active) ==> !LexLess(r, v))
  }

  /** `chooseOtherVersion`. `keys` is the order in which `for...in` visits the
      version labels. The source's fallback to the active version is never
      taken, because the scan starts from a non-empty label. */
  function ChooseOtherVersion(ci: CourseInfo, version: Label, keys: seq<Label>): (r: Option<Label>)
    requires forall v :: v in keys <==> v in ci.versions
    ensures Some(version) != ci.activeVersion ==> r == ci.activeVersion
    ensures Some(version) == ci.activeVersion ==> r.Some? && IsDefaultBelow(ci.versions.Keys, version, r.value)
  {
    if Some(version) != ci.activeVersion then ci.activeVersion
    else
      var best := MaxBelow(keys, ci.activeVersion.value, Floor);
      if best != "" then Some(best) else ci.activeVersion
  }

  /** At most one label satisfies the description of the default. */
  lemma DefaultBelowUnique(versions: set<Label>, active: Label, r1: Label, r2: Label)
    requires IsDefaultBelow(versions, active, r1) && IsDefaultBelow(versions, active, r2)
    ensures r1 == r2
  {
    if r1 != Floor && r2 != Floor {
      LexLessTotal(r1, r2);
    }
  }

  /** The choice does not depend on the order in which the labels are visited. */
  lemma ChooseOrderIndependent(ci: CourseInfo, version: Label, keys1: seq<Label>, keys2: seq<Label>)
    requires forall v :: v in keys1 <==> v in ci.versions
    requires forall v :: v in keys2 <==> v in ci.versions
    ensures ChooseOtherVersion(ci, version, keys1) == ChooseOtherVersion(ci, version, keys2)
  {
    if Some(version) == ci.activeVersion {
      DefaultBelowUnique(ci.versions.Keys, version,
        ChooseOtherVersion(ci, version, keys1).value, ChooseOtherVersion(ci, version, keys2).value);
    }
  }

  /** The stored choice is used only while it is a non-empty label that is
      still a version of the course. */
  predicate StoredUsable(ci: CourseInfo, stored: Option<Label>) {
    stored.Some? && stored.value != "" && stored.value in ci.versions
  }

  /** The decision inside `getOtherVersion`, with the stored label read from
      storage passed in. */
  function GetOtherVersion(ci: CourseInfo, version: Label, stored: Option<Label>, keys: seq<Label>): (r: Option<Label>)
    requires forall v :: v in keys <==> v in ci.versions
    ensures r.Some? ==> r.value in ci.versions || r.value == Floor || r == ci.activeVersion
    ensures r.None? ==> ci.activeVersion.None?
    ensures StoredUsable(ci, stored) ==> r == stored
    ensures !StoredUsable(ci, stored) && Some(version) != ci.activeVersion ==> r == ci.activeVersion
    ensures !StoredUsable(ci, stored) && Some(version) == ci.activeVersion ==>
              r.Some? && IsDefaultBelow(ci.versions.Keys, version, r.value)
  {
    if StoredUsable(ci, stored) then stored
    else ChooseOtherVersion(ci, version, keys)
  }
}

=== FILE: strings.dfy ===
/** String comparison as JavaScript's relational operators perform it. */
module Strings {

  /** `a < b` on JavaScript strings: compare character by character; a proper
      prefix sorts before the longer string. Characters compare by code point. */
  predicate LexLess(a: string, b: string)
    decreases |a|
  {
    if |b| == 0 then false
    else if |a| == 0 then true
    else if a[0] != b[0] then a[0] < b[0]
    else LexLess(a[1..], b[1..])
  }

  /** `\d` of a JavaScript regular expression without the `u` flag. */
  predicate IsDigit(c: char) {
    '0' <= c <= '9'
  }

  lemma {:induction false} LexLessIrreflexive(a: string)
    ensures !LexLess(a, a)
    decreases |a|
  {
    if |a| > 0 {
      LexLessIrreflexive(a[1..]);
    }
  }

  lemma {:induction false} LexLessTransitive(a: string, b: string, c: string)
    requires LexLess(a, b) && LexLess(b, c)
    ensures LexLess(a, c)
    decreases |a|
  {
    if |a| > 0 && a[0] == b[0] && b[0] == c[0] {
      LexLessTransitive(a[1..], b[1..], c[1..]);
    }
  }

  lemma {:induction false} LexLessTotal(a: string, b: string)
    ensures a == b || LexLess(a, b) || LexLess(b, a)
    decreases |a|
  {
    if |a| > 0 && |b| > 0 && a[0] == b[0] {
      LexLessTotal(a[1..], b[1..]);
      if a[1..] == b[1..] {
        assert a == [a[0]] + a[1..] && b == [b[0]] + b[1..];
      }
    }
  }

  lemma LexLessAsymmetric(a: string, b: string)
    requires LexLess(a, b)
    ensures !LexLess(b, a)
  {
    if LexLess(b, a) {
      LexLessTransitive(a, b, a);
      LexLessIrreflexive(a);
    }
  }
}

=== FILE: wrappers.dfy ===
/** Absence and failure, in place of JavaScript's `undefined` and thrown errors. */
module Wrappers {

  /** A value that may be absent; `None` stands for `undefined`. */
  datatype Option<+T> = None | Some(value: T)

  /** The outcome of an operation that can throw; `Failure` stands for the exception. */
  datatype Result<+R, +E> = Success(value: R) | Failure(error: E) {
    predicate IsFailure() {
      Failure?
    }

    function PropagateFailure<U>(): Result<U, E>
      requires Failure?
    {
      Failure(error)
    }

    function Extract(): R
      requires Success?
    {
      value
    }
  }
}
